=== FILE: README.md ===
# Forum message board: hub, message service and registration

A Dafny model of the sequential core of a small real-time message board
written in Go. Clients post short-lived text messages over a WebSocket. The
messages are stored and then broadcast to every connected client. Three
pieces are modelled:

- **The WebSocket hub** (`internal/message/websocket.go`). `WSHub.Run`
  handles one intent at a time under a mutex: register, unregister or
  broadcast. Each `case` is therefore one atomic step on an immutable hub
  value. That value holds the set of live clients and, for every client
  created so far, its `send` channel. The channel is a bounded FIFO of
  capacity 256 with a closed flag. Go's channel semantics live in their own
  module (`Channel`): non-blocking send through `select`/`default`, `close`,
  and receive with `ok`. Sending on a closed channel and closing a closed
  channel are run-time panics, modelled as `Failure(Panic)`. The main
  theorem, `RunNeverPanics`, covers the three `select` cases of `Run` and
  the writers' receives. From any hub satisfying the invariant, no sequence
  of them panics. So the register, unregister and broadcast cases never send
  on, or close, a closed channel. The history-replay goroutine that `Run`
  starts is not covered (see "Left out"). The per-frame logic of `readPump` and the draining done by
  `writePump` are pure functions in `WebSocketClient`.
- **The message service** (`internal/message/service.go`). `PostMessage`
  validates the content, stamps the message and hands it to the store.
  `GetRecentMessages` normalises the limit. The store is a sequence of rows
  that assigns identifiers and logs the calls it receives. A schedule of
  call positions says which calls fail, so one run can mix accepted and
  failed calls.
  The log lets a contract say "`CreateMessage` is never called". The clock
  is two integer readings passed in as parameters.
- **User registration** (`internal/user/service.go`). `Register` runs
  against a repository map keyed by username. Lookups or inserts can be made
  to fail, and the repository also logs its calls.

Files: `wrappers.dfy` (Option, Result, and the repository's `Reply`), `channel.dfy`, `websocket_hub.dfy`,
`websocket_client.dfy`, `message_service.dfy`, `user_service.dfy`.

Model choices. The PostgreSQL repository implementations are replaced by
stand-ins whose behaviour is chosen as follows:

- The store's `GetMessages(limit)` returns the newest `limit` rows, oldest
  first (`MessageService.Newest`).
- `CreateMessage` and `CreateUser` assign the next integer identifier to the
  record they are given. The Go code passes a pointer, so the caller sees that
  identifier.
  That identifier is fresh on a store whose stored identifiers are all below
  it (`IdsBelowNext`), and every insert keeps that property.
- A missing username is reported as `sql.ErrNoRows` (`NoRows`).

Client pointers (`internal/message/websocket.go:115`) are allocation
numbers. `next` in the hub is the next fresh one, which models
`&WSClient{…}` always being a new pointer.

Two points where the code relies on something it does not check, and one
that looks unchecked but is safe:

- A broadcast sends on every live client's channel. If one of those
  channels were closed, the send would panic
  (`internal/message/websocket.go:96-97`). `Broadcast` returns a panic in
  that case. `RunNeverPanics` shows the case cannot arise.
- `CreatedAt` and `ExpiresAt` come from two separate clock readings
  (`internal/message/service.go:67-68`). So `ExpiresAt - CreatedAt` can be
  larger than the TTL. `LifetimeMayExceedTtl` shows this whenever the clock
  moves between the two readings.
- An eviction closes the client's channel without checking that it is open
  (`internal/message/websocket.go:99`). This close can never be the second
  one. A `select` whose send case is on a closed channel panics at `:97`
  before it can take `default`. So `:99` is reached only for an open, full
  channel, whatever the hub's state. `Deliver`'s contract says this
  (`Evicted` only when the channel is not closed).

## Model

| member | source | states |
|---|---|---|
| Channel.TrySend | internal/message/websocket.go:96-98 | a non-blocking send panics exactly on a closed channel, would block exactly when the open channel holds capacity items, and otherwise appends the value at the end |
| Channel.Close | internal/message/websocket.go:89 | closing panics exactly when the channel is already closed; otherwise the buffered items stay and the channel is closed |
| Channel.Recv | internal/message/websocket.go:183-187 | a receive yields the oldest buffered item first; `ok` is false only for a closed channel with nothing left; an open empty channel blocks |
| Channel.Make | internal/message/websocket.go:117 | a new channel is empty, open and has the capacity it was made with |
| Channel.SendIsFifo | internal/message/websocket.go:97 | the next receive after a send yields the old head, or the sent value if the channel was empty |
| WebSocketHub.NewWSHub | internal/message/websocket.go:39-48 | a new hub has no clients and satisfies the hub invariant |
| WebSocketHub.NewClient | internal/message/websocket.go:115-120 | a new client carries the given user id and username, and its channel is empty, open and has capacity 256 |
| WebSocketHub.Register | internal/message/websocket.go:53-56 | registering adds the client to the live set and leaves every client's channel and closed flag unchanged |
| WebSocketHub.Connect | internal/message/websocket.go:115-122 | `HandleWebSocket` registers a freshly allocated client with an empty open channel; existing clients are unchanged |
| WebSocketHub.Unregister | internal/message/websocket.go:85-91 | unregistering an absent client changes nothing; a live client is removed and its channel closed with its frames kept; it panics only if that channel was already closed; others are unchanged |
| WebSocketHub.Deliver | internal/message/websocket.go:96-101 | one client's turn in the broadcast: append the frame if there is room, close a full channel, panic on a closed one |
| WebSocketHub.Broadcast | internal/message/websocket.go:93-103 | broadcast panics exactly when a live channel is closed; otherwise every live client with room gets exactly the frame appended at the end and stays live; every live client with a full channel is closed, gets no frame and leaves the live set; unregistered clients are untouched |
| WebSocketHub.BroadcastLoop | internal/message/websocket.go:95-101 | the Go loop over the clients, in any iteration order, gives the same result as `Broadcast` |
| WebSocketHub.Take | internal/message/websocket.go:183 | the writer's receive removes the oldest frame of its own channel only; no closed flag and no live set changes; the client keeps its user id, username and capacity; an empty channel leaves the hub unchanged |
| WebSocketHub.ConnectPreservesInv | internal/message/websocket.go:115-122 | connecting a new client keeps every live channel open, every other channel closed, and every channel within 256 frames |
| WebSocketHub.RegisterPreservesInv | internal/message/websocket.go:53-56 | registering keeps the invariant if and only if the client's channel is open, which is why only fresh clients may be registered |
| WebSocketHub.UnregisterPreservesInv | internal/message/websocket.go:85-91 | under the invariant, unregister never closes a closed channel and keeps the invariant |
| WebSocketHub.UnregisterIdempotent | internal/message/websocket.go:87-90 | applying unregister twice gives the same result as applying it once |
| WebSocketHub.BroadcastPreservesInv | internal/message/websocket.go:95-101 | under the invariant, broadcast never sends on a closed channel, never overfills one, and evicted clients end closed and not live |
| WebSocketHub.EvictedClientClosedOnce | internal/message/websocket.go:98-100 | a client evicted by a broadcast is closed there with no frame added; the unregister its reader sends later finds it absent and closes nothing |
| WebSocketHub.TakePreservesInv | internal/message/websocket.go:183-187 | the writer draining its channel keeps the invariant |
| WebSocketHub.Step | internal/message/websocket.go:50-106 | one pass of `Run`: only unregister and broadcast can panic; a register always succeeds and makes exactly the fresh client live; no client is ever forgotten or changes its user id or username; nothing but a register adds to the live set |
| WebSocketHub.Run | internal/message/websocket.go:50-106 | the loop over a sequence of intents: a panic needs an unregister or broadcast among them; clients are never forgotten and keep their identity; without a register the live set only shrinks |
| WebSocketHub.StepPreservesInv | internal/message/websocket.go:50-106 | every intent `Run` handles keeps the invariant and never panics |
| WebSocketHub.RunNeverPanics | internal/message/websocket.go:50-106 | from any hub satisfying the invariant, no sequence of register, unregister, broadcast and writer receives panics, and the invariant holds after it |
| WebSocketClient.MessageFrame | internal/message/websocket.go:160-166 | the frame announcing a message has type "message" and carries the message's id, user id, content and creation time |
| WebSocketClient.SameFrameIffSameAnnouncedFields | internal/message/websocket.go:160-166 | two messages give the same modelled frame exactly when they differ at most in status and expiry, which the frame does not carry; the modelled frame's time is the `CreatedAt` reading, not the RFC 3339 text, which drops sub-second digits |
| WebSocketClient.HandleFrame | internal/message/websocket.go:143-174 | an undecodable frame or empty content produces no broadcast and leaves the store untouched; otherwise a broadcast happens exactly when the store accepts the post, and the frame carries the stored row's id, the reader's user id, the content and the creation time |
| WebSocketClient.ReadPump | internal/message/websocket.go:128-176 | the reader asks to be unregistered exactly when a read fails; it makes one store call per non-empty decoded post before the first read error; it only adds rows to the store; it broadcasts one frame per stored row, all of kind "message" and from its own user |
| WebSocketClient.ReadPumpAnnouncesAcceptedPosts | internal/message/websocket.go:147-174 | the reader's broadcasts are exactly the frames of the rows it stored, in order, and their contents are exactly the posts the store accepted, in order; posts whose `CreateMessage` fails are skipped and the rest are still broadcast |
| WebSocketClient.AllPostsAcceptedWhenStoreUp | internal/message/websocket.go:153-157 | when none of the reader's store calls fails, every non-empty decoded post before the first read error is accepted |
| WebSocketClient.ClientReadPump | internal/message/websocket.go:153 | the reader of a hub client posts with that client's `userID`, so every frame it broadcasts carries it |
| WebSocketClient.ConnectedReaderPostsAsUser | internal/message/websocket.go:115-125 | the reader of a client connected for a user broadcasts only frames carrying that user's id |
| WebSocketClient.WritePump | internal/message/websocket.go:178-200 | the writer writes the queued frames in queue order; a failed write stops it after the frames before it, with the failed frame taken from the channel and the rest left queued; otherwise it writes every frame and sends a close frame only when the channel is closed and drained |
| WebSocketClient.SentFrameWrittenAfterQueued | internal/message/websocket.go:183-192 | a frame the broadcast queues is written after every frame already queued: draining the channel writes the old queue, then the frame |
| MessageService.CreateMessage | internal/message/service.go:20-24 | the store logs the call, and either fails when the schedule names this call or appends the message with the store's next id; when every stored id is below that next id, the new id differs from every stored row's id and that property is kept |
| MessageService.GetMessages | internal/message/service.go:22 | the store logs the limit it received and returns its newest `limit` rows (none for a non-positive limit, all when there are fewer), oldest first, or fails when the schedule names this call |
| MessageService.Draft | internal/message/service.go:63-69 | the record handed to the store has no id yet, the user id, the content, status "active", `CreatedAt` from the first reading, and a lifetime of TTL plus the time between the two readings |
| MessageService.PostMessage | internal/message/service.go:58-77 | empty content fails with "message content cannot be empty" and reaches no store call; a store failure gives "failed to create message" and no message; success returns the stored message, with the store's id, user id, content, "active", `CreatedAt` from the first reading and `ExpiresAt` from the second reading plus TTL, so `ExpiresAt ≥ CreatedAt + TTL` for a clock that does not go back; on a store whose ids are below its next id, the new id differs from every stored one |
| MessageService.EffectiveLimit | internal/message/service.go:80-82 | a non-positive limit becomes 50 and a positive one is kept |
| MessageService.GetRecentMessages | internal/message/service.go:79-84 | the store is queried with 50 for a non-positive limit and with the limit itself otherwise, that query is its only effect on the store, and its answer is returned without re-sorting or filtering |
| MessageService.NonPositiveLimitIsDefault | internal/message/service.go:80-83 | limits 0, -5 and every other non-positive limit behave exactly as the limit 50 |
| MessageService.EmptyPostNeverStored | internal/message/service.go:59-61 | posting empty content adds no call to the store's log |
| MessageService.PostedMessageInHistory | internal/message/service.go:63-83 | a message just posted is the newest entry of the next default history, when that history call succeeds |
| MessageService.LifetimeMayExceedTtl | internal/message/service.go:67-68 | when the clock moves between the two readings, `ExpiresAt - CreatedAt` is larger than the TTL |
| UserService.GetUserByUsername | internal/user/service.go:25 | a lookup fails as a database error, finds the stored user, or reports no rows exactly when the name is absent |
| UserService.CreateUser | internal/user/service.go:24 | an insert logs the call, and either fails or stores the user under its username with the store's next id; when every stored id is below that next id, the new id differs from every stored user's id and that property is kept |
| UserService.HashPassword | internal/user/service.go:50 | the password hash is "hashed_" followed by the password |
| UserService.HashPasswordInjective | internal/user/service.go:50 | equal hashes come from equal passwords, so distinct passwords give distinct hashes |
| UserService.Register | internal/user/service.go:39-66 | a lookup error other than no-rows gives "failed to check user existence"; an existing name gives "username already exists"; in both cases the only store call is the lookup; a failed insert gives "failed to create user", no user and no change to the stored users; success stores and returns a user with the given name and email, the hashed password, role "user", status "active" and zero creation and update times, whose id differs from every stored user's id on a store whose ids are below its next id |
| UserService.RejectedRegisterCreatesNothing | internal/user/service.go:41-47 | a registration rejected at the existence check makes only the lookup call and never calls `CreateUser`, whatever calls the store served before |
| UserService.RegisterTwiceFails | internal/user/service.go:41-47 | after one successful registration, registering the same username again fails with "username already exists" |

## Left out

- History replay after register (`internal/message/websocket.go:59-83`): it runs in its own goroutine and does blocking sends that can race with a concurrent close. That is concurrency behaviour, not an atomic hub step. The race can crash the process. Suppose a client's first read (`:135`) fails before `GetRecentMessages` (`:60`) returns. The deferred unregister (`:130`) then makes `Run` close `client.send` (`:89`). The replay's later send at `:81` panics with "send on closed channel", and nothing recovers that panic. `RunNeverPanics` does not cover this send.
- `StartCleanupRoutine` and `DeleteExpiredMessages`: a ticker and context cancellation. The expiry rule itself lives in a repository that is not part of this model.
- WebSocket upgrade, `CheckOrigin`, the connection's reads and writes, `IsUnexpectedCloseError` and the connection `Close` calls. These are transport I/O in a foreign library. A read is given to `ReadPump` as a `ReadEvent`, and write failures are given to `WritePump` as the index of the first failing write.
- Goroutines, blocking channel operations and `sync.Mutex`. Each `Run` case is one atomic step under `h.mu`, and a blocking receive is the `Waiting` or `Blocked` outcome. The writer's receive (`internal/message/websocket.go:183`) does not take `h.mu`, so it can run between two turns of the broadcast loop (`:95-101`). Treating the broadcast as atomic with respect to it is sound: a receive on one client's channel commutes with every other client's turn, so it can be moved to just before or just after the whole broadcast; no channel is shared by two clients.
- JSON encoding and decoding, and RFC 3339 timestamp formatting. Decoding is given as its result (`Option<string>`). A frame's `time` is the message's `CreatedAt` reading, not its rendered text. `json.Marshal` of the response map cannot fail and is not modelled.
- Logging, and `cmd/user/main.go` (process wiring).
- The user repository's `UpdateUser` and `DeleteUser`, which `Register` does not use.
- `time.Time` arithmetic: `Add` is integer addition. Overflow of Go's 64-bit duration and time values is not modelled.
- WebSocketClient.WritePump: a write whose `Close` fails counts as not written. The bytes of such a frame may in fact have partly reached the connection.

=== FILE: channel.dfy ===
/**
 * The Go runtime's buffered channel, `chan T` made with `make(chan T, n)`,
 * as an immutable value: its buffered items in FIFO order, its capacity
 * and whether it has been closed.  The operations are the ones the hub
 * and the client pumps use: a non-blocking send (`select` with `default`),
 * `close`, and a receive that reports `ok == false` once the channel is
 * closed and drained.  Sending on or closing a closed channel panics.
 */
module Channel {
  import opened Wrappers

  /** Run-time panics of channel operations. */
  datatype Panic = SendOnClosedChannel | CloseOfClosedChannel

  datatype Chan<T> = Chan(items: seq<T>, capacity: nat, closed: bool)
  {
    /** No room left in the buffer: a send would block. */
    predicate Full() {
      |items| >= capacity
    }
  }

  /** `make(chan T, capacity)`: empty and open. */
  function Make<T>(capacity: nat): (ch: Chan<T>)
    ensures ch.items == [] && ch.capacity == capacity && !ch.closed
  {
    Chan([], capacity, false)
  }

  datatype SendResult<T> = Sent(ch: Chan<T>) | WouldBlock | SendPanic(panic: Panic)

  /** `select { case ch <- v: … default: … }` */
  function TrySend<T>(ch: Chan<T>, v: T): (r: SendResult<T>)
    ensures r.SendPanic? <==> ch.closed
    ensures r.SendPanic? ==> r.panic == SendOnClosedChannel
    ensures r.WouldBlock? <==> !ch.closed && ch.Full()
    ensures r.Sent? ==> r.ch.items == ch.items + [v] && r.ch.capacity == ch.capacity && !r.ch.closed
  {
    if ch.closed then SendPanic(SendOnClosedChannel)
    else if ch.Full() then WouldBlock
    else Sent(ch.(items := ch.items + [v]))
  }

  /** `close(ch)`: buffered items stay receivable; closing twice panics. */
  function Close<T>(ch: Chan<T>): (r: Result<Chan<T>, Panic>)
    ensures r.Failure? <==> ch.closed
    ensures r.Failure? ==> r.error == CloseOfClosedChannel
    ensures r.Success? ==> r.value.closed && r.value.items == ch.items && r.value.capacity == ch.capacity
  {
    if ch.closed then Failure(CloseOfClosedChannel) else Success(ch.(closed := true))
  }

  datatype RecvResult<T> = Received(v: T, ch: Chan<T>) | ClosedAndDrained | Blocked

  /** `v, ok := <-ch`: buffered items come first, `ok` is false only after them. */
  function Recv<T>(ch: Chan<T>): (r: RecvResult<T>)
    ensures r.Received? <==> |ch.items| > 0
    ensures r.Received? ==> r.v == ch.items[0] && r.ch.items == ch.items[1..]
    ensures r.Received? ==> r.ch.closed == ch.closed && r.ch.capacity == ch.capacity
    ensures r.ClosedAndDrained? <==> ch.closed && ch.items == []
    ensures r.Blocked? <==> !ch.closed && ch.items == []
  {
    if |ch.items| > 0 then Received(ch.items[0], ch.(items := ch.items[1..]))
    else if ch.closed then ClosedAndDrained
    else Blocked
  }

  /** Whatever is sent first is received first. */
  lemma SendIsFifo<T>(ch: Chan<T>, v: T)
    requires TrySend(ch, v).Sent?
    ensures ch.items == [] ==> Recv(TrySend(ch, v).ch) == Received(v, ch.(items := []))
    ensures ch.items != [] ==> Recv(TrySend(ch, v).ch).Received? && Recv(TrySend(ch, v).ch).v == ch.items[0]
  {
  }
}

=== FILE: message_service.dfy ===
/**
 * The message service of internal/message/service.go.  The repository is a
 * sequence store that assigns identifiers, fails the calls its schedule
 * names, and records the calls made to it; the clock is the pair of
 * readings `PostMessage` takes.
 * Timestamps are integers in the clock's unit.
 */
module MessageService {
  import opened Wrappers

  /** History length used when the caller asks for no positive limit. */
  const DefaultLimit: int := 50

  const StatusActive: string := "active"

  datatype Message = Message(
    id: int, userId: int, content: string, status: string, createdAt: int, expiresAt: int)

  datatype RepoCall = CreateMessageCall(msg: Message) | GetMessagesCall(limit: int)

  datatype StoreError = StoreUnavailable

  /**
   * Stand-in for the repository behind `Repository`: `rows` in insertion
   * order, `nextId` the identifier the next insert receives, `calls` the log
   * of calls received, and `down` the positions in that log of the calls
   * that fail.
   */
  datatype Repository = Repository(rows: seq<Message>, nextId: int, down: set<nat>, calls: seq<RepoCall>)
  {
    /** The next call made to the store succeeds. */
    predicate Accepts() {
      |calls| !in down
    }

    /** Every stored row's identifier is below `nextId`, so `nextId` is fresh. */
    predicate IdsBelowNext() {
      forall i :: 0 <= i < |rows| ==> rows[i].id < nextId
    }
  }

  function Last<T>(s: seq<T>): T
    requires |s| > 0
  {
    s[|s| - 1]
  }

  /** `CreateMessage`: insert with a fresh identifier, or fail as scheduled. */
  function CreateMessage(r: Repository, m: Message): (p: Reply<Repository, Message, StoreError>)
    ensures p.repo.calls == r.calls + [CreateMessageCall(m)]
    ensures p.repo.down == r.down
    ensures p.result.Failure? <==> !r.Accepts()
    ensures p.result.Failure? ==> p.repo.rows == r.rows
    ensures p.result.Success? ==>
      && p.result.value == m.(id := r.nextId)
      && p.repo.rows == r.rows + [p.result.value]
    ensures r.IdsBelowNext() ==> p.repo.IdsBelowNext()
    ensures r.IdsBelowNext() && p.result.Success? ==>
      forall i :: 0 <= i < |r.rows| ==> r.rows[i].id != p.result.value.id
  {
    var logged := r.(calls := r.calls + [CreateMessageCall(m)]);
    if !r.Accepts() then Reply(logged, Failure(StoreUnavailable))
    else
      var stored := m.(id := r.nextId);
      Reply(logged.(rows := r.rows + [stored], nextId := r.nextId + 1), Success(stored))
  }

  /** The newest `limit` rows, oldest first; none for a non-positive limit. */
  function Newest(rows: seq<Message>, limit: int): seq<Message>
  {
    if limit <= 0 then [] else if limit < |rows| then rows[|rows| - limit..] else rows
  }

  /** `GetMessages`: the newest rows, or a failure as scheduled. */
  function GetMessages(r: Repository, limit: int): (p: Reply<Repository, seq<Message>, StoreError>)
    ensures p.repo == r.(calls := r.calls + [GetMessagesCall(limit)])
    ensures p.result.Failure? <==> !r.Accepts()
    ensures p.result.Success? ==>
      var v := p.result.value;
      && |v| == (if limit <= 0 then 0 else if limit < |r.rows| then limit else |r.rows|)
      && v == r.rows[|r.rows| - |v|..]
  {
    var logged := r.(calls := r.calls + [GetMessagesCall(limit)]);
    if r.Accepts() then Reply(logged, Success(Newest(r.rows, limit)))
    else Reply(logged, Failure(StoreUnavailable))
  }

  datatype PostError = EmptyContent | CreateFailed
  {
    /** The error text the service returns. */
    function Text(): string {
      match this
      case EmptyContent => "message content cannot be empty"
      case CreateFailed => "failed to create message"
    }
  }

  /** The record `PostMessage` hands to the store, before any identifier is assigned. */
  function Draft(userId: int, content: string, now1: int, now2: int, ttl: int): (d: Message)
    ensures d.id == 0 && d.userId == userId && d.content == content && d.status == StatusActive
    ensures d.createdAt == now1
    ensures d.expiresAt - d.createdAt == ttl + (now2 - now1)
  {
    Message(0, userId, content, StatusActive, now1, now2 + ttl)
  }

  /**
   * `PostMessage`.  `now1` and `now2` are the two clock readings for
   * `CreatedAt` and `ExpiresAt`; `ttl` is the service's message lifetime.
   */
  function PostMessage(r: Repository, ttl: int, userId: int, content: string, now1: int, now2: int)
    : (p: Reply<Repository, Message, PostError>)
    ensures content == "" ==> p == Reply(r, Failure(EmptyContent))
    ensures p.repo.down == r.down
    ensures content != "" ==> |p.repo.calls| == |r.calls| + 1 && p.repo.calls[..|r.calls|] == r.calls
    ensures content != "" ==> p.repo.calls[|r.calls|].CreateMessageCall?
    ensures content != "" && !r.Accepts() ==> p.result == Failure(CreateFailed) && p.repo.rows == r.rows
    ensures p.result.Success? <==> content != "" && r.Accepts()
    ensures p.result.Success? ==>
      var m := p.result.value;
      && m.userId == userId && m.content == content && m.status == StatusActive
      && m.createdAt == now1 && m.expiresAt == now2 + ttl
      && (now1 <= now2 ==> m.expiresAt >= m.createdAt + ttl)
      && p.repo.rows == r.rows + [m]
      && m.id == r.nextId
      && p.repo.calls[|r.calls|] == CreateMessageCall(m.(id := 0))
    ensures r.IdsBelowNext() ==> p.repo.IdsBelowNext()
    ensures r.IdsBelowNext() && p.result.Success? ==>
      forall i :: 0 <= i < |r.rows| ==> r.rows[i].id != p.result.value.id
  {
    if content == "" then Reply(r, Failure(EmptyContent))
    else
      var created := CreateMessage(r, Draft(userId, content, now1, now2, ttl));
      match created.result
      case Failure(_) => Reply(created.repo, Failure(CreateFailed))
      case Success(m) => Reply(created.repo, Success(m))
  }

  /** The limit `GetRecentMessages` passes to the store. */
  function EffectiveLimit(limit: int): (n: int)
    ensures n > 0
    ensures limit > 0 ==> n == limit
    ensures limit <= 0 ==> n == DefaultLimit
  {
    if limit <= 0 then DefaultLimit else limit
  }

  /** `GetRecentMessages`: normalise the limit and return the store's answer as is. */
  function GetRecentMessages(r: Repository, limit: int): (p: Reply<Repository, seq<Message>, StoreError>)
    ensures p.repo == r.(calls := r.calls + [GetMessagesCall(EffectiveLimit(limit))])
    ensures p.result.Success? ==> p.result.value == Newest(r.rows, EffectiveLimit(limit))
    ensures p.result.Failure? <==> !r.Accepts()
  {
    GetMessages(r, EffectiveLimit(limit))
  }

  /** Zero and negative limits all behave as the default limit. */
  lemma NonPositiveLimitIsDefault(r: Repository, limit: int)
    requires limit <= 0
    ensures GetRecentMessages(r, limit) == GetRecentMessages(r, DefaultLimit)
  {
  }

  /** A rejected post never reaches the store. */
  lemma EmptyPostNeverStored(r: Repository, ttl: int, userId: int, now1: int, now2: int)
    ensures PostMessage(r, ttl, userId, "", now1, now2).result == Failure(EmptyContent)
    ensures forall c :: c in PostMessage(r, ttl, userId, "", now1, now2).repo.calls ==> c in r.calls
  {
  }

  /** A message just posted is part of the next default history the store serves. */
  lemma PostedMessageInHistory(r: Repository, ttl: int, userId: int, content: string, now1: int, now2: int)
    requires PostMessage(r, ttl, userId, content, now1, now2).result.Success?
    requires PostMessage(r, ttl, userId, content, now1, now2).repo.Accepts()
    ensures var p := PostMessage(r, ttl, userId, content, now1, now2);
      var h := GetRecentMessages(p.repo, DefaultLimit);
      && h.result.Success?
      && |h.result.value| > 0
      && Last(h.result.value) == p.result.value
  {
  }

  /**
   * The two clock readings need not agree, so the lifetime a message gets
   * can exceed `ttl`: the store is never told `ExpiresAt - CreatedAt == ttl`.
   */
  lemma LifetimeMayExceedTtl(r: Repository, ttl: int, userId: int, content: string, now1: int, now2: int)
    requires r.Accepts() && content != "" && now1 < now2
    ensures var m := PostMessage(r, ttl, userId, content, now1, now2).result.value;
      m.expiresAt - m.createdAt > ttl
  {
  }
}

=== FILE: user_service.dfy ===
/**
 * `Register` of internal/user/service.go against a map-backed repository
 * keyed by username.  The repository can fail its lookups or its inserts
 * and records the calls made to it.
 */
module UserService {
  import opened Wrappers

  /** Prefix of the placeholder password "hash". */
  const HashPrefix: string := "hashed_"
  const RoleUser: string := "user"
  const StatusActive: string := "active"

  /** `CreatedAt` and `UpdatedAt` are left at Go's zero time, written 0. */
  datatype User = User(
    id: int, username: string, email: string, passwordHash: string,
    role: string, status: string, createdAt: int, updatedAt: int)

  /** `NoRows` is `sql.ErrNoRows`; `LookupFailed` is any other error. */
  datatype LookupError = NoRows | LookupFailed

  datatype StoreError = StoreUnavailable

  datatype RepoCall = GetUserByUsernameCall(username: string) | CreateUserCall(user: User)

  datatype Repository = Repository(
    users: map<string, User>, nextId: int, lookupFails: bool, createFails: bool, calls: seq<RepoCall>)
  {
    /** Every stored user's identifier is below `nextId`, so `nextId` is fresh. */
    predicate IdsBelowNext() {
      forall name :: name in users ==> users[name].id < nextId
    }
  }

  /** `GetUserByUsername`. */
  function GetUserByUsername(r: Repository, username: string): (p: Reply<Repository, User, LookupError>)
    ensures p.repo == r.(calls := r.calls + [GetUserByUsernameCall(username)])
    ensures p.result.Success? <==> !r.lookupFails && username in r.users
    ensures p.result.Success? ==> p.result.value == r.users[username]
    ensures p.result == Failure(NoRows) <==> !r.lookupFails && username !in r.users
  {
    var logged := r.(calls := r.calls + [GetUserByUsernameCall(username)]);
    if r.lookupFails then Reply(logged, Failure(LookupFailed))
    else if username in r.users then Reply(logged, Success(r.users[username]))
    else Reply(logged, Failure(NoRows))
  }

  /** `CreateUser`: store under the username with a fresh identifier. */
  function CreateUser(r: Repository, u: User): (p: Reply<Repository, User, StoreError>)
    ensures p.repo.calls == r.calls + [CreateUserCall(u)]
    ensures p.repo.lookupFails == r.lookupFails && p.repo.createFails == r.createFails
    ensures p.result.Failure? <==> r.createFails
    ensures p.result.Failure? ==> p.repo.users == r.users
    ensures p.result.Success? ==> p.result.value == u.(id := r.nextId) && p.repo.users == r.users[u.username := p.result.value]
    ensures r.IdsBelowNext() ==> p.repo.IdsBelowNext()
    ensures r.IdsBelowNext() && p.result.Success? ==>
      forall name :: name in r.users ==> r.users[name].id != p.result.value.id
  {
    var logged := r.(calls := r.calls + [CreateUserCall(u)]);
    if r.createFails then Reply(logged, Failure(StoreUnavailable))
    else
      var stored := u.(id := r.nextId);
      Reply(logged.(users := r.users[u.username := stored], nextId := r.nextId + 1), Success(stored))
  }

  /** The placeholder password "hash": the prefix followed by the password. */
  function HashPassword(password: string): (h: string)
    ensures |h| == |HashPrefix| + |password|
    ensures h[..|HashPrefix|] == HashPrefix && h[|HashPrefix|..] == password
  {
    HashPrefix + password
  }

  /** The prefix hides nothing: different passwords give different hashes. */
  lemma HashPasswordInjective(p1: string, p2: string)
    requires HashPassword(p1) == HashPassword(p2)
    ensures p1 == p2
  {
  }

  datatype RegisterError = CheckFailed | UsernameTaken | CreateFailed
  {
    /** The error text the service returns. */
    function Text(): string {
      match this
      case CheckFailed => "failed to check user existence"
      case UsernameTaken => "username already exists"
      case CreateFailed => "failed to create user"
    }
  }

  predicate CreateCalled(calls: seq<RepoCall>) {
    exists i :: 0 <= i < |calls| && calls[i].CreateUserCall?
  }

  /** `Register`. */
  function Register(r: Repository, username: string, email: string, password: string)
    : (p: Reply<Repository, User, RegisterError>)
    ensures r.lookupFails ==> p.result == Failure(CheckFailed)
    ensures !r.lookupFails && username in r.users ==> p.result == Failure(UsernameTaken)
    ensures !r.lookupFails && username !in r.users && r.createFails ==>
      p.result == Failure(CreateFailed) && p.repo.users == r.users
    ensures p.result == Failure(CheckFailed) || p.result == Failure(UsernameTaken) ==>
      p.repo == r.(calls := r.calls + [GetUserByUsernameCall(username)])
    ensures p.result.Success? <==> !r.lookupFails && username !in r.users && !r.createFails
    ensures p.result.Success? ==>
      var u := p.result.value;
      && u.username == username && u.email == email
      && u.passwordHash == HashPassword(password)
      && u.role == RoleUser && u.status == StatusActive
      && u.createdAt == 0 && u.updatedAt == 0
      && u.id == r.nextId
      && p.repo.users == r.users[username := u]
    ensures p.repo.lookupFails == r.lookupFails && p.repo.createFails == r.createFails
    ensures r.IdsBelowNext() ==> p.repo.IdsBelowNext()
    ensures r.IdsBelowNext() && p.result.Success? ==>
      forall name :: name in r.users ==> r.users[name].id != p.result.value.id
  {
    var lookup := GetUserByUsername(r, username);
    if lookup.result.Failure? && lookup.result.error != NoRows then Reply(lookup.repo, Failure(CheckFailed))
    else if lookup.result.Success? then Reply(lookup.repo, Failure(UsernameTaken))
    else
      var user := User(0, username, email, HashPassword(password), RoleUser, StatusActive, 0, 0);
      var created := CreateUser(lookup.repo, user);
      if created.result.Failure? then Reply(created.repo, Failure(CreateFailed))
      else Reply(created.repo, Success(created.result.value))
  }

  /** A failed existence check or a taken name never reaches `CreateUser`. */
  lemma RejectedRegisterCreatesNothing(r: Repository, username: string, email: string, password: string)
    requires r.lookupFails || username in r.users
    ensures |Register(r, username, email, password).repo.calls| == |r.calls| + 1
    ensures !CreateCalled(Register(r, username, email, password).repo.calls[|r.calls|..])
  {
  }

  /** Once a name is registered, registering it again fails. */
  lemma RegisterTwiceFails(r: Repository, username: string, e1: string, p1: string, e2: string, p2: string)
    requires Register(r, username, e1, p1).result.Success?
    ensures Register(Register(r, username, e1, p1).repo, username, e2, p2).result == Failure(UsernameTaken)
  {
  }
}

=== FILE: websocket_client.dfy ===
/**
 * The two pumps of a `WSClient` in internal/message/websocket.go.  The
 * reader turns each inbound frame into at most one broadcast; the writer
 * drains the client's `send` channel onto the connection.  JSON decoding
 * is given as its result: `Some(content)` for a payload that decoded,
 * `None` for one that did not.
 */
module WebSocketClient {
  import opened Wrappers
  import opened Channel
  import opened WebSocketHub
  import MessageService

  /**
   * The outbound frame announcing a stored message: its identifier, author,
   * content and creation time; its status and expiry are not sent.
   */
  function MessageFrame(m: MessageService.Message): (f: Frame)
    ensures f.kind == MessageKind && f.id == m.id && f.userId == m.userId
    ensures f.content == m.content && f.time == m.createdAt
  {
    Frame(MessageKind, m.id, m.userId, m.content, m.createdAt)
  }

  /** Two messages announce the same frame exactly when they agree on everything but status and expiry. */
  lemma SameFrameIffSameAnnouncedFields(m1: MessageService.Message, m2: MessageService.Message)
    ensures MessageFrame(m1) == MessageFrame(m2) <==>
      m1 == m2.(status := m1.status, expiresAt := m1.expiresAt)
  {
  }

  /** The frames announcing each of `ms`, in order. */
  function Frames(ms: seq<MessageService.Message>): seq<Frame>
  {
    seq(|ms|, i requires 0 <= i < |ms| => MessageFrame(ms[i]))
  }

  /** The `content` field of each frame, in order. */
  function Contents(fs: seq<Frame>): seq<string>
  {
    seq(|fs|, i requires 0 <= i < |fs| => fs[i].content)
  }

  lemma FramesAppend(a: seq<MessageService.Message>, b: seq<MessageService.Message>)
    ensures Frames(a + b) == Frames(a) + Frames(b)
  {
  }

  lemma ContentsAppend(a: seq<Frame>, b: seq<Frame>)
    ensures Contents(a + b) == Contents(a) + Contents(b)
  {
  }

  /** The reader's effect on the store, and the frame it hands to the hub, if any. */
  datatype FrameStep = FrameStep(repo: MessageService.Repository, broadcast: Option<Frame>)

  /** The decoded payload is a post `PostMessage` does not reject outright. */
  predicate IsPost(decoded: Option<string>) {
    decoded.Some? && decoded.value != ""
  }

  /**
   * One iteration of `readPump` after a successful read: decode, post, and
   * broadcast the stored message; skip the frame on any error.
   */
  function HandleFrame(
    repo: MessageService.Repository, ttl: int, userId: int, decoded: Option<string>, now1: int, now2: int)
    : (s: FrameStep)
    ensures !IsPost(decoded) ==> s == FrameStep(repo, None)
    ensures s.repo.down == repo.down
    ensures |s.repo.calls| == |repo.calls| + (if IsPost(decoded) then 1 else 0)
    ensures s.broadcast.Some? <==> IsPost(decoded) && repo.Accepts()
    ensures s.broadcast.None? ==> s.repo.rows == repo.rows
    ensures s.broadcast.Some? ==>
      var f := s.broadcast.value;
      && |s.repo.rows| == |repo.rows| + 1
      && s.repo.rows == repo.rows + [MessageService.Last(s.repo.rows)]
      && f == MessageFrame(MessageService.Last(s.repo.rows))
      && f.kind == MessageKind
      && f.id == MessageService.Last(s.repo.rows).id
      && f.userId == userId
      && f.content == decoded.value
      && f.time == now1
  {
    match decoded
    case None => FrameStep(repo, None)
    case Some(content) =>
      var posted := MessageService.PostMessage(repo, ttl, userId, content, now1, now2);
      match posted.result
      case Failure(_) => FrameStep(posted.repo, None)
      case Success(m) => FrameStep(posted.repo, Some(MessageFrame(m)))
  }

  /** What the connection delivers to `ReadMessage`, with the two clock readings of the post. */
  datatype ReadEvent = Incoming(decoded: Option<string>, now1: int, now2: int) | ReadError

  /** The reader's whole run: the frames it broadcast and whether it asked to be unregistered. */
  datatype ReaderRun = ReaderRun(repo: MessageService.Repository, broadcasts: seq<Frame>, unregistered: bool)

  /** Contents a reader posts from `events`: the non-empty decoded ones before the first read error. */
  function Posts(events: seq<ReadEvent>): seq<string>
  {
    if events == [] then []
    else
      match events[0]
      case ReadError => []
      case Incoming(d, _, _) => (if IsPost(d) then [d.value] else []) + Posts(events[1..])
  }

  /**
   * The posts of `events` that the store accepts, when the first of them is
   * the store's call number `n` and the calls numbered in `down` fail.
   */
  function Accepted(events: seq<ReadEvent>, n: nat, down: set<nat>): seq<string>
  {
    if events == [] then []
    else
      match events[0]
      case ReadError => []
      case Incoming(d, _, _) =>
        if !IsPost(d) then Accepted(events[1..], n, down)
        else (if n in down then [] else [d.value]) + Accepted(events[1..], n + 1, down)
  }

  /**
   * `readPump` over a finite stream of events: it stops at the first read
   * error, and its deferred unregister fires only then.  Every post the
   * store accepts is broadcast, in order, as the frame of the row it stored.
   */
  function ReadPump(repo: MessageService.Repository, ttl: int, userId: int, events: seq<ReadEvent>)
    : (r: ReaderRun)
    decreases |events|
    ensures r.unregistered <==> ReadError in events
    ensures r.repo.down == repo.down
    ensures |r.repo.calls| == |repo.calls| + |Posts(events)|
    ensures |repo.rows| <= |r.repo.rows| && r.repo.rows[..|repo.rows|] == repo.rows
    ensures |r.broadcasts| == |r.repo.rows| - |repo.rows|
    ensures forall i :: 0 <= i < |r.broadcasts| ==>
      r.broadcasts[i].userId == userId && r.broadcasts[i].kind == MessageKind
  {
    if events == [] then ReaderRun(repo, [], false)
    else
      match events[0]
      case ReadError => ReaderRun(repo, [], true)
      case Incoming(d, t1, t2) =>
        var s := HandleFrame(repo, ttl, userId, d, t1, t2);
        var rest := ReadPump(s.repo, ttl, userId, events[1..]);
        var sent := if s.broadcast.Some? then [s.broadcast.value] else [];
        assert ReadError in events <==> ReadError in events[1..] by {
          assert events == [events[0]] + events[1..];
        }
        ReaderRun(rest.repo, sent + rest.broadcasts, rest.unregistered)
  }

  /**
   * Every post the store accepts is broadcast, in order, as the frame of
   * the row it stored, and nothing else is broadcast.
   */
  lemma {:induction false} ReadPumpAnnouncesAcceptedPosts(
    repo: MessageService.Repository, ttl: int, userId: int, events: seq<ReadEvent>)
    ensures var r := ReadPump(repo, ttl, userId, events);
      r.broadcasts == Frames(r.repo.rows[|repo.rows|..])
    ensures var r := ReadPump(repo, ttl, userId, events);
      Contents(r.broadcasts) == Accepted(events, |repo.calls|, repo.down)
    decreases |events|
  {
    if events != [] && events[0].Incoming? {
      var Incoming(d, t1, t2) := events[0];
      var s := HandleFrame(repo, ttl, userId, d, t1, t2);
      var rest := ReadPump(s.repo, ttl, userId, events[1..]);
      ReadPumpAnnouncesAcceptedPosts(s.repo, ttl, userId, events[1..]);
      var sent := if s.broadcast.Some? then [s.broadcast.value] else [];
      var r := ReadPump(repo, ttl, userId, events);
      assert r.broadcasts == sent + rest.broadcasts;
      assert r.repo == rest.repo;
      var mine := s.repo.rows[|repo.rows|..];
      var later := rest.repo.rows[|s.repo.rows|..];
      SliceOfExtension(repo.rows, s.repo.rows, rest.repo.rows);
      assert sent == Frames(mine);
      FramesAppend(mine, later);
      ContentsAppend(sent, rest.broadcasts);
    }
  }

  /** The part of `c` beyond `a` is the part of `b` beyond `a`, then the part of `c` beyond `b`. */
  lemma SliceOfExtension<T>(a: seq<T>, b: seq<T>, c: seq<T>)
    requires |a| <= |b| && b[..|a|] == a
    requires |b| <= |c| && c[..|b|] == b
    ensures c[|a|..] == b[|a|..] + c[|b|..]
  {
    assert c == b + c[|b|..];
  }

  /** When none of the reader's calls is scheduled to fail, every post is accepted. */
  lemma {:induction false} AllPostsAcceptedWhenStoreUp(events: seq<ReadEvent>, n: nat, down: set<nat>)
    requires forall k :: n <= k < n + |Posts(events)| ==> k !in down
    ensures Accepted(events, n, down) == Posts(events)
    decreases |events|
  {
    if events != [] && events[0].Incoming? {
      var d := events[0].decoded;
      if IsPost(d) {
        assert n !in down;
        AllPostsAcceptedWhenStoreUp(events[1..], n + 1, down);
      } else {
        AllPostsAcceptedWhenStoreUp(events[1..], n, down);
      }
    }
  }

  /** The reader of hub client `c` posts as that client's user. */
  function ClientReadPump(h: WSHub, c: ClientId, repo: MessageService.Repository, ttl: int, events: seq<ReadEvent>)
    : (r: ReaderRun)
    requires c in h.clients
    ensures forall i :: 0 <= i < |r.broadcasts| ==> r.broadcasts[i].userId == h.clients[c].userId
  {
    ReadPump(repo, ttl, h.clients[c].userId, events)
  }

  /** A client connected for user `userId` broadcasts only frames carrying `userId`. */
  lemma ConnectedReaderPostsAsUser(
    h: WSHub, userId: int, username: string, repo: MessageService.Repository, ttl: int, events: seq<ReadEvent>)
    ensures var r := ClientReadPump(Connect(h, userId, username), h.next, repo, ttl, events);
      forall i :: 0 <= i < |r.broadcasts| ==> r.broadcasts[i].userId == userId
  {
  }

  /** How `writePump` stops, or that it is still waiting for frames. */
  datatype WriterExit = Waiting | SentClose | WriteFailed

  datatype WriterRun = WriterRun(written: seq<Frame>, exit: WriterExit, rest: Chan<Frame>)

  /** The connection's write of the frame with this index fails. */
  predicate FailsWithin(failAt: Option<nat>, n: nat) {
    failAt.Some? && failAt.value < n
  }

  function Countdown(failAt: Option<nat>): Option<nat>
  {
    match failAt
    case None => None
    case Some(k) => if k == 0 then None else Some(k - 1)
  }

  /**
   * `writePump` run against the channel as it stands.  `failAt` is the
   * index of the first frame whose write fails, `None` if none does.
   */
  function WritePump(ch: Chan<Frame>, failAt: Option<nat>): (w: WriterRun)
    decreases |ch.items|
    ensures FailsWithin(failAt, |ch.items|) ==>
      && w.exit == WriteFailed
      && w.written == ch.items[..failAt.value]
      && w.rest == ch.(items := ch.items[failAt.value + 1..])
    ensures !FailsWithin(failAt, |ch.items|) ==>
      && w.written == ch.items
      && w.exit == (if ch.closed then SentClose else Waiting)
      && w.rest == ch.(items := [])
  {
    match Recv(ch)
    case Blocked => WriterRun([], Waiting, ch)
    case ClosedAndDrained => WriterRun([], SentClose, ch)
    case Received(f, rest) =>
      if failAt == Some(0) then WriterRun([], WriteFailed, rest)
      else
        var w := WritePump(rest, Countdown(failAt));
        WriterRun([f] + w.written, w.exit, w.rest)
  }

  /**
   * A frame the hub queues is written after every frame already queued:
   * draining the channel after the send writes the old queue, then the frame.
   */
  lemma SentFrameWrittenAfterQueued(ch: Chan<Frame>, f: Frame)
    requires TrySend(ch, f).Sent?
    ensures WritePump(TrySend(ch, f).ch, None).written == ch.items + [f]
    ensures WritePump(TrySend(ch, f).ch, None).exit == Waiting
  {
  }
}

=== FILE: websocket_hub.dfy ===
/**
 * The WebSocket hub of internal/message/websocket.go.  `WSHub.Run` takes one
 * intent at a time under its mutex, so each `case` of its `select` is an
 * atomic step on an immutable hub value: the set of live clients, and for
 * every client ever connected its identity and its outbound `send` channel.
 * A Go run-time panic (sending on or closing a closed channel) ends a step
 * with `Failure`.
 */
module WebSocketHub {
  import opened Wrappers
  import opened Channel

  /** Buffer size of every client's `send` channel. */
  const SendBufferSize: nat := 256

  /** The `type` field of every outbound frame. */
  const MessageKind: string := "message"

  /** Identity of a `*WSClient`: pointers are modelled as allocation numbers. */
  type ClientId = nat

  /** One outbound payload `{type, id, user_id, content, time}`. */
  datatype Frame = Frame(kind: string, id: int, userId: int, content: string, time: int)

  datatype Client = Client(userId: int, username: string, send: Chan<Frame>)

  /**
   * `live` is the hub's `clients` map; `clients` holds every client created
   * so far, registered or not, and `next` is the next fresh identity.
   */
  datatype Hub = Hub(live: set<ClientId>, clients: map<ClientId, Client>, next: ClientId)

  /** A live pointer always refers to an allocated client. */
  type WSHub = h: Hub | h.live <= h.clients.Keys && forall c :: c in h.clients ==> c < h.next
    witness Hub({}, map[], 0)

  /** What one client's channel must satisfy for the hub never to panic. */
  predicate ChannelOk(live: bool, ch: Chan<Frame>) {
    && ch.capacity == SendBufferSize
    && |ch.items| <= ch.capacity
    && (live <==> !ch.closed)
  }

  /** Live clients have open channels, unregistered ones closed channels. */
  ghost predicate Inv(h: WSHub) {
    forall c :: c in h.clients ==> ChannelOk(c in h.live, h.clients[c].send)
  }

  /** `NewWSHub`: no clients. */
  function NewWSHub(): (h: WSHub)
    ensures h.live == {} && h.clients == map[]
    ensures Inv(h)
  {
    Hub({}, map[], 0)
  }

  /** The client `HandleWebSocket` builds before registering it. */
  function NewClient(userId: int, username: string): (cl: Client)
    ensures cl.userId == userId && cl.username == username
    ensures cl.send == Make(SendBufferSize)
  {
    Client(userId, username, Make(SendBufferSize))
  }

  /** The `register` case: the client joins the live set, nothing else changes. */
  function Register(h: WSHub, c: ClientId): (r: WSHub)
    requires c in h.clients
    ensures r.live == h.live + {c}
    ensures r.clients == h.clients && r.next == h.next
  {
    h.(live := h.live + {c})
  }

  /** `HandleWebSocket`: allocate a fresh client with an empty channel, then register it. */
  function Connect(h: WSHub, userId: int, username: string): (r: WSHub)
    ensures h.next !in h.clients
    ensures r.live == h.live + {h.next}
    ensures r.clients.Keys == h.clients.Keys + {h.next}
    ensures r.clients[h.next] == NewClient(userId, username)
    ensures forall c :: c in h.clients ==> r.clients[c] == h.clients[c]
  {
    var h1: WSHub := Hub(h.live, h.clients[h.next := NewClient(userId, username)], h.next + 1);
    Register(h1, h.next)
  }

  /** The `unregister` case: remove and close a live client; absent clients are ignored. */
  function Unregister(h: WSHub, c: ClientId): (r: Result<WSHub, Panic>)
    ensures c !in h.live ==> r == Success(h)
    ensures c in h.live ==> (r.Failure? <==> h.clients[c].send.closed)
    ensures r.Success? ==> r.value.live == h.live - {c} && r.value.next == h.next
    ensures r.Success? ==> r.value.clients.Keys == h.clients.Keys
    ensures r.Success? && c in h.live ==>
      && r.value.clients[c].send.closed
      && r.value.clients[c].send.items == h.clients[c].send.items
    ensures r.Success? ==> forall d :: d in h.clients && d != c ==> r.value.clients[d] == h.clients[d]
  {
    if c in h.live then
      match Close(h.clients[c].send)
      case Failure(p) => Failure(p)
      case Success(ch) => Success(Hub(h.live - {c}, h.clients[c := h.clients[c].(send := ch)], h.next))
    else Success(h)
  }

  /** What the broadcast loop does to one live client's channel. */
  datatype Delivery = Delivered(ch: Chan<Frame>) | Evicted(ch: Chan<Frame>) | Crashed(panic: Panic)

  /** One iteration of the broadcast loop: send without blocking, or close a full channel. */
  function Deliver(ch: Chan<Frame>, f: Frame): (d: Delivery)
    ensures d.Crashed? <==> ch.closed
    ensures d.Crashed? ==> d.panic == SendOnClosedChannel
    ensures d.Delivered? <==> !ch.closed && !ch.Full()
    ensures d.Delivered? ==> d.ch.items == ch.items + [f] && !d.ch.closed && d.ch.capacity == ch.capacity
    ensures d.Evicted? ==> d.ch.items == ch.items && d.ch.closed && d.ch.capacity == ch.capacity
  {
    match TrySend(ch, f)
    case Sent(ch') => Delivered(ch')
    case WouldBlock => Evicted(Close(ch).value)
    case SendPanic(p) => Crashed(p)
  }

  /**
   * The `broadcast` case.  Go ranges over the map in an unspecified order;
   * every client's fate depends only on its own channel, so the outcome is
   * the same for every order.
   */
  function Broadcast(h: WSHub, f: Frame): (r: Result<WSHub, Panic>)
    ensures r.Failure? <==> exists c :: c in h.live && h.clients[c].send.closed
    ensures r.Success? ==> r.value.clients.Keys == h.clients.Keys && r.value.next == h.next
    ensures r.Success? ==> r.value.live <= h.live
    ensures r.Success? ==> forall c :: c in h.live && !h.clients[c].send.Full() ==>
      && c in r.value.live
      && r.value.clients[c].send.items == h.clients[c].send.items + [f]
      && !r.value.clients[c].send.closed
    ensures r.Success? ==> forall c :: c in h.live && h.clients[c].send.Full() ==>
      && c !in r.value.live
      && r.value.clients[c].send.items == h.clients[c].send.items
      && r.value.clients[c].send.closed
    ensures r.Success? ==> forall c :: c in h.clients ==>
      && r.value.clients[c].userId == h.clients[c].userId
      && r.value.clients[c].username == h.clients[c].username
      && r.value.clients[c].send.capacity == h.clients[c].send.capacity
    ensures r.Success? ==> forall c :: c in h.clients && c !in h.live ==> r.value.clients[c] == h.clients[c]
  {
    if exists c :: c in h.live && Deliver(h.clients[c].send, f).Crashed? then
      Failure(SendOnClosedChannel)
    else
      Success(Hub(Survivors(h, f), Offered(h, f), h.next))
  }

  /** The live clients whose channel had room for the frame. */
  function Survivors(h: WSHub, f: Frame): set<ClientId>
  {
    set c | c in h.live && Deliver(h.clients[c].send, f).Delivered?
  }

  /** Every client after the broadcast of `f`. */
  function Offered(h: WSHub, f: Frame): map<ClientId, Client>
    requires forall c :: c in h.live ==> !h.clients[c].send.closed
  {
    map c | c in h.clients :: Offer(h, c, f)
  }

  /** A client after the broadcast of `f`, when no live channel is closed. */
  function Offer(h: WSHub, c: ClientId, f: Frame): Client
    requires c in h.clients
    requires c in h.live ==> !h.clients[c].send.closed
  {
    if c in h.live then h.clients[c].(send := Deliver(h.clients[c].send, f).ch) else h.clients[c]
  }

  /** The broadcast loop as Go writes it: one client at a time, in any order. */
  method BroadcastLoop(h: WSHub, f: Frame) returns (r: Result<WSHub, Panic>)
    ensures r == Broadcast(h, f)
  {
    var live := h.live;
    var clients := h.clients;
    var pending := h.live;
    while pending != {}
      invariant pending <= h.live && live <= h.live
      invariant clients.Keys == h.clients.Keys
      invariant forall c :: c in pending ==> c in live && clients[c] == h.clients[c]
      invariant forall c :: c in h.clients && c !in h.live ==> clients[c] == h.clients[c]
      invariant forall c :: c in h.live && c !in pending ==>
        && !h.clients[c].send.closed
        && (c in live <==> Deliver(h.clients[c].send, f).Delivered?)
        && clients[c] == Offer(h, c, f)
      decreases pending
    {
      var c :| c in pending;
      var cl := clients[c];
      match Deliver(cl.send, f) {
        case Delivered(ch) =>
          clients := clients[c := cl.(send := ch)];
        case Evicted(ch) =>
          clients := clients[c := cl.(send := ch)];
          live := live - {c};
        case Crashed(p) =>
          assert c in h.live && Deliver(h.clients[c].send, f).Crashed?;
          assert Broadcast(h, f) == Failure(p);
          return Failure(p);
      }
      pending := pending - {c};
    }
    assert !exists c :: c in h.live && Deliver(h.clients[c].send, f).Crashed?;
    assert live == Survivors(h, f);
    assert clients == Offered(h, f);
    r := Success(Hub(live, clients, h.next));
  }

  /** The writer pump takes the oldest frame of a client's channel, if any. */
  function Take(h: WSHub, c: ClientId): (r: WSHub)
    ensures r.live == h.live && r.next == h.next && r.clients.Keys == h.clients.Keys
    ensures c in h.clients && h.clients[c].send.items != [] ==>
      r.clients[c].send.items == h.clients[c].send.items[1..]
    ensures forall d :: d in h.clients ==> r.clients[d].send.closed == h.clients[d].send.closed
    ensures forall d :: d in h.clients && d != c ==> r.clients[d] == h.clients[d]
    ensures c in h.clients ==>
      && r.clients[c].userId == h.clients[c].userId
      && r.clients[c].username == h.clients[c].username
      && r.clients[c].send.capacity == h.clients[c].send.capacity
    ensures c in h.clients && h.clients[c].send.items == [] ==> r == h
  {
    if c in h.clients then
      match Recv(h.clients[c].send)
      case Received(_, ch) => h.(clients := h.clients[c := h.clients[c].(send := ch)])
      case ClosedAndDrained => h
      case Blocked => h
    else h
  }

  /** Everything that can happen to the hub: its three intents and a writer's receive. */
  datatype Intent =
    | RegisterIntent(userId: int, username: string)
    | UnregisterIntent(client: ClientId)
    | BroadcastIntent(frame: Frame)
    | WriterReceive(client: ClientId)

  /** Register never panics; only unregister and broadcast touch a channel's closed flag. */
  predicate MayPanic(i: Intent) {
    i.UnregisterIntent? || i.BroadcastIntent?
  }

  /**
   * One pass of the `Run` loop (or one writer receive).  Clients are never
   * forgotten and keep their identity; only a register makes a client live.
   */
  function Step(h: WSHub, i: Intent): (r: Result<WSHub, Panic>)
    ensures r.Failure? ==> MayPanic(i)
    ensures i.RegisterIntent? ==> r.Success? && r.value.live == h.live + {h.next} && h.next !in h.clients
    ensures r.Success? ==> h.clients.Keys <= r.value.clients.Keys && h.next <= r.value.next
    ensures r.Success? ==> forall c :: c in h.clients ==>
      r.value.clients[c].userId == h.clients[c].userId && r.value.clients[c].username == h.clients[c].username
    ensures r.Success? && !i.RegisterIntent? ==> r.value.live <= h.live
  {
    match i
    case RegisterIntent(u, n) => Success(Connect(h, u, n))
    case UnregisterIntent(c) => Unregister(h, c)
    case BroadcastIntent(f) => Broadcast(h, f)
    case WriterReceive(c) => Success(Take(h, c))
  }

  /** `Run` over a sequence of intents; a panic stops the process. */
  function Run(h: WSHub, intents: seq<Intent>): (r: Result<WSHub, Panic>)
    decreases |intents|
    ensures r.Failure? ==> exists k :: 0 <= k < |intents| && MayPanic(intents[k])
    ensures r.Success? ==> h.clients.Keys <= r.value.clients.Keys && h.next <= r.value.next
    ensures r.Success? ==> forall c :: c in h.clients ==>
      r.value.clients[c].userId == h.clients[c].userId && r.value.clients[c].username == h.clients[c].username
    ensures r.Success? && (forall k :: 0 <= k < |intents| ==> !intents[k].RegisterIntent?) ==>
      r.value.live <= h.live
  {
    if intents == [] then Success(h)
    else
      match Step(h, intents[0])
      case Failure(p) => Failure(p)
      case Success(h1) => Run(h1, intents[1..])
  }

  lemma ConnectPreservesInv(h: WSHub, userId: int, username: string)
    requires Inv(h)
    ensures Inv(Connect(h, userId, username))
    ensures h.next in Connect(h, userId, username).live
  {
  }

  /** Registering a client is safe only while its channel is open. */
  lemma RegisterPreservesInv(h: WSHub, c: ClientId)
    requires Inv(h) && c in h.clients
    ensures Inv(Register(h, c)) <==> !h.clients[c].send.closed
  {
  }

  lemma UnregisterPreservesInv(h: WSHub, c: ClientId)
    requires Inv(h)
    ensures Unregister(h, c).Success?
    ensures Inv(Unregister(h, c).value)
  {
  }

  /** Unregistering twice is the same as unregistering once. */
  lemma UnregisterIdempotent(h: WSHub, c: ClientId)
    requires Unregister(h, c).Success?
    ensures Unregister(Unregister(h, c).value, c) == Unregister(h, c)
  {
  }

  lemma BroadcastPreservesInv(h: WSHub, f: Frame)
    requires Inv(h)
    ensures Broadcast(h, f).Success?
    ensures Inv(Broadcast(h, f).value)
  {
  }

  /**
   * A client evicted by a broadcast is closed by it, gets no frame, and the
   * unregister its reader sends later finds it gone and closes nothing.
   */
  lemma EvictedClientClosedOnce(h: WSHub, f: Frame, c: ClientId)
    requires Inv(h) && c in h.live && h.clients[c].send.Full()
    ensures Broadcast(h, f).Success?
    ensures c !in Broadcast(h, f).value.live
    ensures Broadcast(h, f).value.clients[c].send.closed
    ensures Broadcast(h, f).value.clients[c].send.items == h.clients[c].send.items
    ensures Unregister(Broadcast(h, f).value, c) == Broadcast(h, f)
  {
  }

  lemma TakePreservesInv(h: WSHub, c: ClientId)
    requires Inv(h)
    ensures Inv(Take(h, c))
  {
  }

  lemma StepPreservesInv(h: WSHub, i: Intent)
    requires Inv(h)
    ensures Step(h, i).Success?
    ensures Inv(Step(h, i).value)
  {
  }

  /**
   * From a fresh hub, or any hub satisfying the invariant, no sequence of
   * intents makes the hub send on or close a closed channel, and every
   * channel stays within its 256-frame buffer.
   */
  lemma {:induction false} RunNeverPanics(h: WSHub, intents: seq<Intent>)
    requires Inv(h)
    ensures Run(h, intents).Success?
    ensures Inv(Run(h, intents).value)
    decreases |intents|
  {
    if intents != [] {
      StepPreservesInv(h, intents[0]);
      RunNeverPanics(Step(h, intents[0]).value, intents[1..]);
    }
  }
}

=== FILE: wrappers.dfy ===
/** Failure-carrying values shared by every module of the model. */
module Wrappers {

  /** A value that may be absent: Go's nil pointer or a failed decode. */
  datatype Option<+T> = None | Some(value: T)

  /** The outcome of an operation that returns either a value or an error. */
  datatype Result<+T, +E> = Success(value: T) | Failure(error: E)

  /** A repository call's result together with the repository after the call. */
  datatype Reply<+S, +T, +E> = Reply(repo: S, result: Result<T, E>)

}
